=== FILE: README.md ===
# Unciv turn notifier — a Dafny model of its turn-monitoring core

The notifier is a chat bot. It polls the JSON of an Unciv multiplayer game, announces
each change of the player whose turn it is, and sends escalating reminders (10 minutes,
30 minutes, 1 hour) to the player who is holding the game up. Players subscribe a chat
handle to their nation so that the notices can mention them.

This project models that core as one immutable state record (`Notifier.State`). It
holds the watched game, the main chat, the last turn player (an upper-cased key), the
pause flag, the roster of human nations, the subscriptions (an insertion-ordered dict
from key to handle), the per-player reminder entries, the ETag cache and the per-chat
error timestamps. The core operations are pure step functions from a state to the next
state plus the structured events or reply they produce:

- `Monitor.Tick` is one run of the monitor job. `Monitor.Poll` is the same run including
  the conditional fetch.
- `Monitor.SendDebouncedError` sends the "server down" message with debouncing.
- `Commands.SetGame`, `Commands.Subscribe`, `Commands.Unsubscribe` and
  `Commands.TogglePause` model the commands that change the state.
- `Game.Fetch` is the ETag logic of the fetch.
- `Game.RawNationName` and `Text.Normalize` are the name helpers.

Time is an integer number of seconds passed in as `now`. The HTTP layer is an abstract
`Game.Response`. Whether an error message was delivered is a boolean parameter.
Events are what the core hands to the chat transport, i.e. the sends it attempts.
`Notifier.Restart` models what survives a restart: the fields written by `save_state`
and read back by `load_state`. Every path that changes the game, the subscriptions or
the last turn player also saves. The chat is different: `/setgame` and `/subscribe`
bind it even on paths that return without saving. The state therefore also records
the chat as last saved (`savedChat`), and a restart restores that one.

Files:

- `wrappers.dfy`: `Option`.
- `text.dfy`: upper-case fold, substring test, `strip`, `join`.
- `ordered_dict.dfy`: the insertion-ordered dict.
- `game.dfy`: payload, ETag fetch, roster, name look-ups.
- `notifier.dfy`: state, schedule, events, invariant, restart.
- `monitor.dfy`: tick and debounce.
- `commands.dfy`: the commands.
- `properties.dfy`: multi-tick runs and a scenario.

Two details of the code shape the properties below:

- The roster is taken from the payload only by `/setgame` and by a tick that observes
  a turn player for the first time. Later payloads leave it alone.
- Each reminder delay is measured from the previous reminder
  (`last_reminded + schedule[idx]`). The first reminder is measured from the turn start.

Two consequences of the code as written are proved as properties:

- `/setgame` caches the game's ETag. The first poll against an unchanged server is
  therefore answered "not modified" while no turn player is known, and it does nothing.
  Repeating `/setgame` for the same unchanged game fails with "could not fetch".
- After a restart the last turn player is restored, but the reminder entries and the
  roster are not. While only ticks run, no reminder fires until the turn changes; a
  `/pause` that resumes re-creates the holder's entry and so re-arms the reminders. The
  roster stays empty (so `/subscribe` always answers "not found") until the next
  `/setgame`.

## Model

| member | source | states |
|---|---|---|
| Text.Normalize | unciv_notifier.py:255-256 | the canonical key has the name's length and is the name upper-cased character by character |
| Text.NormalizeIdempotent | unciv_notifier.py:255-256 | normalizing a normalized key changes nothing, so every stored key is canonical |
| Text.NormalizeIgnoresCase | unciv_notifier.py:255-256 | "Rome", "ROME" and "rome" share the key "ROME" |
| Text.Contains | unciv_notifier.py:412-415 | `sub in s` holds exactly when `sub` occurs in `s` at some position |
| Text.Strip | unciv_notifier.py:404 | the result is a slice of the input with only whitespace cut from both ends, and it neither starts nor ends with whitespace |
| OrderedDict.Set | unciv_notifier.py:423 | after `d[k] = v`, `k` maps to `v` and every other key keeps its value; an existing key keeps its position, a new key is appended |
| OrderedDict.Delete | unciv_notifier.py:436 | after `del d[k]`, `k` is absent, every other key keeps its value, one entry is gone, and the remaining entries keep their order |
| OrderedDict.FirstWithValue | unciv_notifier.py:433 | the position of the first entry in dict order holding the value, or none when no entry holds it |
| Game.Fetch | unciv_notifier.py:264-285 | a 304 is "not modified"; a transport error or a status of 400 or above is a failure; any other response caches its non-empty ETag for the URL, even when the body then fails to decode; no other URL's ETag changes |
| Game.RevalidationRoundTrip | unciv_notifier.py:265-272 | a second fetch of an unchanged resource sends the cached ETag and is answered "not modified" with the cache unchanged |
| Game.HumanRoster | unciv_notifier.py:339-343 | the roster holds exactly the non-empty names of human civs, and no more names than there are civs |
| Game.HumanRosterKeepsOrder | unciv_notifier.py:340-341 | the roster keeps payload order: the roster of a concatenation is the concatenation of the rosters |
| Game.RawNationName | unciv_notifier.py:258-259 | returns the first roster name whose upper-case form is the key, or the key itself when no name matches |
| Game.RawNationNameRoundTrip | unciv_notifier.py:258-259 | upper-casing the display name found for a canonical key gives the key back |
| Game.FindNation | unciv_notifier.py:411-415 | finds the first roster name that contains the query, ignoring case; when none is found, no name contains it |
| Commands.PickNation | unciv_notifier.py:412-420 | the pick is a non-empty roster name containing the query, ignoring case, with no earlier name containing it; when roster names are non-empty, "not found" happens exactly when no roster name contains the query |
| Notifier.Initial | unciv_notifier.py:57-70 | at start-up no game and no chat are set, nothing is paused, no player, roster or reminder entry is known, there are no subscriptions, the ETag cache and the error timestamps are empty, and no chat has been saved |
| Notifier.Restart | unciv_notifier.py:212-253 | a restart keeps the game, subscriptions and last turn player and brings back the chat as last saved; it resets the pause flag, roster, reminder entries, ETag cache and error timestamps; it keeps the invariant |
| Notifier.SetKeepsLoginsWellFormed | unciv_notifier.py:422-423 | storing an `@` handle under a non-empty upper-cased key keeps every key non-empty and upper-cased and every handle `@`-prefixed |
| Notifier.DeleteKeepsLoginsWellFormed | unciv_notifier.py:436 | deleting a subscription keeps the table well formed |
| Monitor.TurnStartTime | unciv_notifier.py:544-553 | the turn start is the payload's milliseconds rounded down to seconds, or `now` when the field is absent or 0 |
| Monitor.SendDebouncedError | unciv_notifier.py:503-512 | the error is sent exactly when at least 300 s have passed since the chat's last delivered error (never counts as 0); the timestamp becomes `now` only on delivery; other chats are untouched |
| Monitor.Detect | unciv_notifier.py:530-541 | classifies the tick: no current player, first observation (no last player), a changed upper-cased player, or the same player; "not modified" with a known player is always "unchanged" |
| Monitor.Tick | unciv_notifier.py:514-640 | see the bullets below this table |
| Monitor.Poll | unciv_notifier.py:518-528 | without a game nothing is fetched or changed; otherwise only the game URL's ETag can change, only on a successful response, and a response carrying a new ETag caches it; a failed fetch changes only the cache and the error timestamps and sends the server-down message exactly when a chat is set and 300 s have passed since the last delivered one, moving that chat's timestamp to `now` on delivery; a successful fetch never reports the server down; at most one message is sent; the commands' fields are untouched; the invariant is kept |
| Commands.SetGame | unciv_notifier.py:300-343 | see the bullets below this table |
| Commands.Subscribe | unciv_notifier.py:394-425 | see the bullets below this table |
| Commands.SubscribeKeepsInv | unciv_notifier.py:422-423 | `/subscribe` stores only non-empty, upper-cased keys with `@` handles, so it keeps the invariant |
| Commands.Unsubscribe | unciv_notifier.py:427-440 | see the bullets below this table |
| Commands.TogglePause | unciv_notifier.py:442-467 | see the bullets below this table |
| Properties.Run | unciv_notifier.py:514-640 | a run of ticks sends at most one message per tick, never changes the commands' fields, and keeps the invariant |
| Properties.TickFollowsSchedule | unciv_notifier.py:605-640 | a tick that keeps the holder advances its index by at most one, within the schedule; a reminder it sends carries the delay at the old index; it sends no turn-change notice |
| Properties.RemindersFollowSchedule | unciv_notifier.py:605-640 | while the holder stays the same, the reminders sent are exactly the next entries of the schedule, in order, each at most once, and no turn-change notice is sent |
| Properties.ExhaustedScheduleIsSilent | unciv_notifier.py:617-640 | once the holder's index reaches the end of the schedule, no further reminder is sent while the holder stays the same |
| Properties.NoEntryNoReminder | unciv_notifier.py:605 | a holder without a reminder entry gets no reminder, and no entry is created, while it stays the holder |
| Properties.RestartSilencesReminders | unciv_notifier.py:212-229 | after a restart, over any run of ticks that keeps the holder, no reminder is sent, because the entries are not persisted but the last turn player is; only a turn change or a resuming `/pause` creates a new entry |
| Properties.RosterFrozenOnceHolderKnown | unciv_notifier.py:556-579 | once a turn player is known, no tick replaces the roster |
| Properties.RestartLosesRoster | unciv_notifier.py:212-229 | after a restart the roster stays empty through any ticks, so `/subscribe` cannot succeed |
| Properties.FailedCommandChatLostOnRestart | unciv_notifier.py:300-322 | a `/setgame` or `/subscribe` that fails still binds the chat it came from, but a restart brings back the chat saved before it |
| Properties.PausedIsSilent | unciv_notifier.py:587 | while paused, ticks send neither turn-change notices nor reminders |
| Properties.NoErrorWithinWindow | unciv_notifier.py:503-512 | within 300 s of an error reaching the chat, no error message is sent and the timestamp stays put |
| Properties.AtMostOneErrorPerWindow | unciv_notifier.py:503-512 | delivered errors within any 300 s window number at most one |
| Properties.PauseResumeRearms | unciv_notifier.py:452-465 | pausing then resuming with a known holder re-arms that holder at index 0 from the resume time |
| Properties.FirstPollAfterSetGameIsSilent | unciv_notifier.py:530-533 | after a successful `/setgame`, polling an unchanged server is "not modified" and changes nothing |
| Properties.RepeatedSetGameFails | unciv_notifier.py:314-319 | a second `/setgame` for the same unchanged game replies "could not fetch" and changes nothing |
| Properties.ScenarioSubscribe | unciv_notifier.py:394-425 | with roster Rome and Egypt, `/subscribe Rome @alice` stores "@alice" under "ROME" |
| Properties.RomeEgyptScenario | unciv_notifier.py:556-603 | after `/subscribe Rome @alice`, a first observation of "ROME" sends nothing and starts Rome at index 0; then "Egypt" takes over, one turn-change notice without a handle goes out, and Egypt starts at index 0 |

What `Monitor.Tick` states:

- A tick touches only the last turn player, the roster, the reminder entries, the error timestamps and the saved chat, and sends at most one message.
- A failed fetch changes nothing but the error timestamps. It sends the error exactly when a game and a chat are set and the debounce window has passed. The chat's timestamp becomes `now` exactly when the error is sent and delivered.
- With no game, or no current player, nothing happens. This includes "not modified" before any player is known.
- A first observation records the upper-cased holder with a fresh entry at the turn start. It sends nothing, it replaces the roster only when the payload lists a human civ, and it saves.
- A turn change records the new holder with a fresh entry, leaves other entries alone, and saves. It sends one notice, with the holder's handle if subscribed, exactly when a chat is set and nothing is paused.
- An unchanged holder gets one reminder exactly when its entry exists, a chat is set, nothing is paused, the schedule is not exhausted and the current delay has elapsed since the previous reminder. Its index then advances by one, its reminder time becomes `now`, and the state is saved. Otherwise nothing changes.
- While the holder stays the same, indices only grow, by at most one.
- The tick keeps the invariant.

What `Commands.SetGame` states:

- Without arguments it replies with the usage text. The chat is bound first.
- It succeeds exactly when the fetch of the stripped id's URL yields a payload. Only then does it forget subscriptions, reminder entries and the last player, watch the new URL, take the human roster, and save.
- A 304 replies "could not fetch" naming the stripped id. Any other failed fetch (a transport error, a status of 400 or above, or a body that does not decode) replies "failed to connect"; with arguments it never replies with the usage text. On failure only the chat and the ETag cache change.

What `Commands.Subscribe` states:

- Fewer than two arguments gives usage; a last argument without `@` gives a format error. With a valid handle, every reply other than a subscription is "nation not found".
- A subscription happens exactly when the first roster name containing the joined, stripped query (ignoring case) exists and is non-empty.
- It then stores the handle under that name's upper-cased key, keeps every other subscription, and saves. The new table is the dict assignment `OrderedDict.Set`: an existing key keeps its place and a new key goes last. Otherwise nothing but the chat changes, and the chat is not saved.

What `Commands.Unsubscribe` states:

- Without an `@handle` argument it gives usage.
- Otherwise it never replies with the usage text, and "not subscribed" names the given handle. Under the invariant, it unsubscribes exactly when some subscription holds the handle.
- It removes only the first subscription, in dict order, held by the handle, and saves. The remaining entries keep their order, and the nation is named through the roster.
- When no subscription holds the handle, nothing changes. It keeps the invariant.

What `Commands.TogglePause` states:

- The flag always flips, only the flag and the entries can change, and every toggle saves.
- Pausing touches nothing else.
- Resuming with a known holder resets that holder's entry to index 0 with both times `now`, leaves other entries alone, and names the holder and its handle. Resuming with no known holder changes no entry.

## Left out

- HTTP through aiohttp, timeouts and client exceptions (`fetch_game_json` beyond its ETag logic): these are the abstract `Game.Response` and `Game.FetchOutcome`. A JSON `null` body and non-object JSON bodies are not modelled; every decoded body is an object.
- The chat transport (`send_message`, `reply_text`) and all reply text, including the `TRANSLATIONS` table and `_`: the model returns structured events and replies. A failed send of a turn notice or reminder does not change the state in the code, so only the error debounce takes a `delivered` flag.
- `start`, `help_command`, `status`, `list_subscriptions`, `set_language_cmd`, `set_interval_cmd`, the job queue and `main`: these are framework plumbing or read-only views outside the core.
- `atomic_write_json`, `save_state` and `load_state` as file I/O: only their effect on the state is modelled, as `Notifier.Restart` and the saved chat. A save that fails, and a state file that fails to load, are not modelled. The language and interval settings they also carry are not modelled.
- `asyncio.Lock` and interleavings of handlers and ticks: every step is atomic.
- `datetime`, ISO strings and float `time.time()`: times are integer seconds. The milliseconds-to-seconds conversion rounds down. A timestamp out of `fromtimestamp`'s range is not modelled.
- The reminder branch that repairs a missing or non-string `last_reminded_time` (unciv_notifier.py:611-614): the code creates entries only with valid times and never persists them, so the branch cannot be reached.
- Text.Normalize: folds only ASCII letters, whereas `str.upper()` also folds other scripts.
- Text.Strip: strips only ASCII whitespace, whereas `str.strip()` also strips Unicode spaces.
- The `UNCIV_BASE_URL` override: the URL prefix is its default value.
- A payload whose `civilizations` entries are not objects (`set_game` then falls back to an empty roster) is not modelled; civs are records.
- `/start`, `/setinterval` and `/setlanguage` are not modelled. Each of them calls `save_state`, so each also saves the chat held in memory, which a later restart brings back. `/start` first binds the chat it comes from. In the model, the saved chat changes only through the commands and ticks that are modelled.

=== FILE: commands.dfy ===
/** The chat commands that change the core state: `/setgame`, `/subscribe`,
    `/unsubscribe` and `/pause`. Each takes the state and the command's arguments and
    returns the next state and the reply, as a structured value. */
module Commands {
  import opened Wrappers
  import opened Text
  import opened OrderedDict
  import opened Game
  import opened Notifier

  /** `if update.effective_chat: MAIN_CHAT_ID = update.effective_chat.id`, done by
      `/setgame` and `/subscribe` before they look at their arguments. */
  function BindChat(s: State, effectiveChat: Option<int>): State
  {
    if effectiveChat.Some? then s.(chat := effectiveChat) else s
  }

  datatype SetGameReply =
    | SetGameUsage
    | FetchFailed(gameId: string)
    | ConnectFailed
    | GameSet(gameId: string, nations: seq<string>)

  /** `/setgame <id>`: fetch the game (through the ETag cache) and, only if a payload
      arrives, forget every subscription, reminder entry and the last turn player, watch
      the new URL, take the roster from the payload's human civs, and save. A "not
      modified" answer counts as a failed fetch. The chat is bound in any case, but saved
      only on success. */
  function SetGame(s: State, effectiveChat: Option<int>, args: seq<string>, resp: Response): (r: (State, SetGameReply))
    ensures r.0.chat == BindChat(s, effectiveChat).chat
    ensures r.0.paused == s.paused && r.0.lastErrorTime == s.lastErrorTime
    ensures |args| == 0 ==> r == (BindChat(s, effectiveChat), SetGameUsage)
    ensures !r.1.GameSet? ==>
              r.0 == BindChat(s, effectiveChat).(etagCache := r.0.etagCache)
    ensures r.1.GameSet? <==>
              |args| > 0 && Fetch(s.etagCache, BaseUrl + Strip(args[0]), resp).0.Fresh?
    ensures r.1.GameSet? ==>
              var id := Strip(args[0]);
              && r.1 == GameSet(id, r.0.roster)
              && r.0.gameId == Some(id) && r.0.gameUrl == Some(BaseUrl + id)
              && r.0.lastTurnPlayer.None? && r.0.notifState == map[] && r.0.logins == []
              && r.0.roster == HumanRoster(resp.body.value.civs)
              && r.0.savedChat == r.0.chat
    ensures r.1.FetchFailed? <==> |args| > 0 && resp.Http? && resp.status == 304
    ensures r.1.FetchFailed? ==> r.1.gameId == Strip(args[0])
    ensures |args| > 0 ==> r.1 != SetGameUsage
    ensures r.1 == ConnectFailed <==>
              |args| > 0 && Fetch(s.etagCache, BaseUrl + Strip(args[0]), resp).0.Failure?
    ensures |args| > 0 ==> r.0.etagCache == Fetch(s.etagCache, BaseUrl + Strip(args[0]), resp).1
    ensures Inv(s) ==> Inv(r.0)
  {
    var s1 := BindChat(s, effectiveChat);
    if |args| == 0 then (s1, SetGameUsage)
    else
      var id := Strip(args[0]);
      var url := BaseUrl + id;
      var (o, cache) := Fetch(s1.etagCache, url, resp);
      var s2 := s1.(etagCache := cache);
      match o
      case Failure => (s2, ConnectFailed)
      case NotModified => (s2, FetchFailed(id))
      case Fresh(p) =>
        var roster := HumanRoster(p.civs);
        (Save(s2.(gameId := Some(id), gameUrl := Some(url), lastTurnPlayer := None,
                  roster := roster, logins := Empty(), notifState := map[])),
         GameSet(id, roster))
  }

  datatype SubscribeReply =
    | SubscribeUsage
    | BadHandle
    | NationNotFound
    | Subscribed(nation: string, handle: string)

  /** The nation query of `/subscribe`: every argument but the last, joined by spaces
      and stripped. */
  function NationQuery(args: seq<string>): string
    requires |args| >= 1
  {
    Strip(Join(args[..|args| - 1], " "))
  }

  /** `/subscribe <nation> @handle`: with fewer than two arguments, or a last argument
      not starting with `@`, nothing but the chat binding changes; otherwise the FIRST
      roster name containing the query (ignoring case) gets the handle under its
      upper-cased key, every other subscription is kept, and the state is saved. */
  function Subscribe(s: State, effectiveChat: Option<int>, args: seq<string>): (r: (State, SubscribeReply))
    ensures r.0 == BindChat(s, effectiveChat).(logins := r.0.logins, savedChat := r.0.savedChat)
    ensures r.0.savedChat == (if r.1.Subscribed? then r.0.chat else s.savedChat)
    ensures |args| < 2 ==> r.1 == SubscribeUsage
    ensures |args| >= 2 && !("@" <= args[|args| - 1]) ==> r.1 == BadHandle
    ensures |args| >= 2 && "@" <= args[|args| - 1] && !r.1.Subscribed? ==> r.1 == NationNotFound
    ensures !r.1.Subscribed? ==> r.0.logins == s.logins
    ensures r.1.Subscribed? <==>
              && |args| >= 2 && "@" <= args[|args| - 1]
              && FindNation(s.roster, NationQuery(args)).Some?
              && s.roster[FindNation(s.roster, NationQuery(args)).value] != ""
    ensures r.1.Subscribed? ==>
              && r.1.nation == s.roster[FindNation(s.roster, NationQuery(args)).value]
              && r.1.handle == args[|args| - 1]
              && Get(r.0.logins, Normalize(r.1.nation)) == Some(r.1.handle)
              && r.0.logins == Set(s.logins, Normalize(r.1.nation), r.1.handle)
              && (forall k :: k != Normalize(r.1.nation) ==> Get(r.0.logins, k) == Get(s.logins, k))
  {
    var s1 := BindChat(s, effectiveChat);
    if |args| < 2 then (s1, SubscribeUsage)
    else
      var handle := args[|args| - 1];
      if !("@" <= handle) then (s1, BadHandle)
      else match PickNation(s1.roster, NationQuery(args))
        case None => (s1, NationNotFound)
        case Some(found) =>
          var key := Normalize(found);
          (Save(s1.(logins := Set(s1.logins, key, handle))), Subscribed(found, handle))
  }

  /** `/subscribe` keeps the invariant: the key it stores is the upper-cased form of a
      non-empty roster name. */
  lemma SubscribeKeepsInv(s: State, effectiveChat: Option<int>, args: seq<string>)
    requires Inv(s)
    ensures Inv(Subscribe(s, effectiveChat, args).0)
  {
    var (r, reply) := Subscribe(s, effectiveChat, args);
    if reply.Subscribed? {
      NormalizeIdempotent(reply.nation);
      SetKeepsLoginsWellFormed(s.logins, Normalize(reply.nation), reply.handle);
    }
  }

  /** The nation `/subscribe` picks for query `q`: the first roster name that contains
      it, ignoring case, unless that name is empty (`if not found`). */
  function PickNation(roster: seq<string>, q: string): (r: Option<string>)
    ensures r.Some? ==> r.value in roster && r.value != "" && Matches(r.value, q)
    ensures r.Some? ==> exists i :: 0 <= i < |roster| && roster[i] == r.value
                          && forall j :: 0 <= j < i ==> !Matches(roster[j], q)
    ensures (forall n :: n in roster ==> n != "") ==>
              (r.Some? <==> exists n :: n in roster && Matches(n, q))
  {
    match FindNation(roster, q)
    case None => None
    case Some(i) =>
      assert roster[i] in roster;
      if roster[i] == "" then None else Some(roster[i])
  }

  datatype UnsubscribeReply =
    | UnsubscribeUsage
    | NotSubscribed(handle: string)
    | Unsubscribed(handle: string, nation: string)

  /** `/unsubscribe @handle`: removes only the FIRST subscription, in dict order, held
      by the handle, and saves; other subscriptions, and the state otherwise, are
      untouched. A valid handle that some subscription holds is always removed. */
  function Unsubscribe(s: State, args: seq<string>): (r: (State, UnsubscribeReply))
    ensures r.0 == s.(logins := r.0.logins, savedChat := r.0.savedChat)
    ensures r.0.savedChat == (if r.1.Unsubscribed? then s.chat else s.savedChat)
    ensures |args| == 0 || !("@" <= args[0]) ==> r == (s, UnsubscribeUsage)
    ensures |args| > 0 && "@" <= args[0] ==> r.1 != UnsubscribeUsage
    ensures Inv(s) ==>
              (r.1.Unsubscribed? <==>
                 |args| > 0 && "@" <= args[0] && exists i :: 0 <= i < |s.logins| && s.logins[i].1 == args[0])
    ensures !r.1.Unsubscribed? ==> r.0.logins == s.logins
    ensures r.1.NotSubscribed? ==> |args| > 0 && r.1.handle == args[0]
    ensures r.1.NotSubscribed? && Inv(s) ==> forall i :: 0 <= i < |s.logins| ==> s.logins[i].1 != args[0]
    ensures r.1.Unsubscribed? ==>
              exists i :: 0 <= i < |s.logins| && s.logins[i].1 == args[0] == r.1.handle
                && (forall j :: 0 <= j < i ==> s.logins[j].1 != args[0])
                && Get(r.0.logins, s.logins[i].0) == None
                && r.0.logins == s.logins[..i] + s.logins[i + 1..]
                && (forall k :: k != s.logins[i].0 ==> Get(r.0.logins, k) == Get(s.logins, k))
                && r.1.nation == RawNationName(s.roster, s.logins[i].0)
    ensures Inv(s) ==> Inv(r.0)
  {
    if |args| == 0 || !("@" <= args[0]) then (s, UnsubscribeUsage)
    else
      var handle := args[0];
      match FirstWithValue(s.logins, handle)
      case None => (s, NotSubscribed(handle))
      case Some(i) =>
        var key := s.logins[i].0;
        if key == "" then (s, NotSubscribed(handle))
        else
          assert HasKey(s.logins, key);
          assert IndexOf(s.logins, key) == Some(i);
          DeleteKeepsLoginsWellFormed(s.logins, key);
          var logins := Delete(s.logins, key);
          (Save(s.(logins := logins)), Unsubscribed(handle, RawNationName(s.roster, key)))
  }

  /** The holder named in the resume notice: display name and subscribed handle. */
  datatype Holder = Holder(nation: string, login: Option<string>)

  datatype PauseReply = PausedNotice | ResumedNotice(holder: Option<Holder>)

  /** `/pause` toggles the pause flag. Resuming while a turn holder is known re-arms
      that holder's entry at `now` (index 0, both times `now`) and names the holder in
      the reply; pausing, and resuming with no known holder, leave the entries alone.
      Every toggle saves. */
  function TogglePause(s: State, now: int): (r: (State, PauseReply))
    ensures r.0.paused == !s.paused
    ensures r.0 == s.(paused := r.0.paused, notifState := r.0.notifState, savedChat := s.chat)
    ensures !s.paused ==> r == (Save(s.(paused := true)), PausedNotice)
    ensures s.paused && !(s.lastTurnPlayer.Some? && s.lastTurnPlayer.value != "") ==>
              r == (Save(s.(paused := false)), ResumedNotice(None))
    ensures s.paused && s.lastTurnPlayer.Some? && s.lastTurnPlayer.value != "" ==>
              var key := s.lastTurnPlayer.value;
              && key in r.0.notifState && r.0.notifState[key] == StartEntry(now)
              && SameExcept(s.notifState, r.0.notifState, key)
              && r.1 == ResumedNotice(Some(Holder(RawNationName(s.roster, key), Get(s.logins, key))))
    ensures Inv(s) ==> Inv(r.0)
  {
    if !s.paused then (Save(s.(paused := true)), PausedNotice)
    else
      match s.lastTurnPlayer
      case Some(key) =>
        if key != "" then
          (Save(s.(paused := false, notifState := s.notifState[key := StartEntry(now)])),
           ResumedNotice(Some(Holder(RawNationName(s.roster, key), Get(s.logins, key)))))
        else (Save(s.(paused := false)), ResumedNotice(None))
      case None => (Save(s.(paused := false)), ResumedNotice(None))
  }
}

=== FILE: game.dfy ===
/** The remote game resource as the notifier sees it: the fields it reads from the
    published game JSON, the conditional (ETag) fetch, the extraction of the human
    roster, and the two roster look-ups (`get_raw_nation_name` and the subscribe
    search). */
module Game {
  import opened Wrappers
  import opened Text

  /** Default of the `UNCIV_BASE_URL` setting; a game's URL is this prefix plus its id. */
  const BaseUrl: string := "https://uncivserver.xyz/jsons/"

  /** One entry of the payload's `civilizations` list: its `civName` (a missing name
      is the empty string, which the code treats alike) and whether its
      `playerType` is `"Human"`. */
  datatype Civ = Civ(civName: string, isHuman: bool)

  /** The fields of a game JSON object the notifier reads: `currentPlayer`,
      `currentTurnStartTime` (milliseconds since the epoch) and `civilizations`. */
  datatype Payload = Payload(currentPlayer: Option<string>, turnStartMs: Option<int>, civs: seq<Civ>)

  /** What a fetch yields to its caller: an exception, `{"_not_modified": True}`, or the decoded JSON. */
  datatype FetchOutcome = Failure | NotModified | Fresh(payload: Payload)

  /** What the HTTP layer delivers: a timeout or client error, or a response with its
      status, its `ETag` header and its body (`None` when the body is not valid JSON). */
  datatype Response = TransportError | Http(status: int, etag: Option<string>, body: Option<Payload>)

  /** The `If-None-Match` value sent for `url`: the cached ETag, unless absent or empty. */
  function Validator(cache: map<string, string>, url: string): Option<string>
  {
    if url in cache && cache[url] != "" then Some(cache[url]) else None
  }

  /** A successful (not 304, below 400) response that carries a non-empty ETag. */
  predicate StoresEtag(resp: Response)
  {
    resp.Http? && resp.status != 304 && resp.status < 400 && resp.etag.Some? && resp.etag.value != ""
  }

  /** The ETag logic of `fetch_game_json`: a 304 is "not modified", a transport error or
      a status of 400 and above is a failure, and any other response stores its non-empty
      ETag for `url` before its body is decoded, so a body that fails to decode still
      leaves the new ETag cached. */
  function Fetch(cache: map<string, string>, url: string, resp: Response): (r: (FetchOutcome, map<string, string>))
    ensures r.0.NotModified? <==> resp.Http? && resp.status == 304
    ensures r.0.Fresh? <==> resp.Http? && resp.status != 304 && resp.status < 400 && resp.body.Some?
    ensures r.0.Fresh? ==> r.0.payload == resp.body.value
    ensures StoresEtag(resp) ==> url in r.1 && r.1[url] == resp.etag.value
    ensures !StoresEtag(resp) ==> r.1 == cache
    ensures forall u :: u != url ==> (u in r.1 <==> u in cache) && (u in cache ==> r.1[u] == cache[u])
  {
    match resp
    case TransportError => (Failure, cache)
    case Http(status, etag, body) =>
      if status == 304 then (NotModified, cache)
      else if status >= 400 then (Failure, cache)
      else
        var cache' := if etag.Some? && etag.value != "" then cache[url := etag.value] else cache;
        if body.Some? then (Fresh(body.value), cache') else (Failure, cache')
  }

  /** A server that honours conditional requests: it answers 304 when the request
      carries its current ETag and the full game otherwise. Used only to state what
      the ETag cache does across two fetches. */
  datatype Server = Server(etag: string, game: Payload)

  function Serve(srv: Server, validator: Option<string>): Response
  {
    if validator == Some(srv.etag) then Http(304, None, None)
    else Http(200, Some(srv.etag), Some(srv.game))
  }

  /** Fetching the same URL from an unchanged server twice: the first fetch caches the
      server's ETag, so the second one is answered "not modified". */
  lemma RevalidationRoundTrip(cache: map<string, string>, url: string, srv: Server)
    requires srv.etag != ""
    ensures var (o1, c1) := Fetch(cache, url, Serve(srv, Validator(cache, url)));
            && (o1 == Fresh(srv.game) || o1 == NotModified)
            && Fetch(c1, url, Serve(srv, Validator(c1, url))) == (NotModified, c1)
  {
  }

  /** Whether any civ is human: the test `if human_civs:` on the list of human civ
      names, empty names included. */
  predicate HasHuman(civs: seq<Civ>)
  {
    exists i :: 0 <= i < |civs| && civs[i].isHuman
  }

  /** The roster: the non-empty names of the human civs, in payload order. */
  function HumanRoster(civs: seq<Civ>): (r: seq<string>)
    ensures |r| <= |civs|
    ensures forall n :: n in r ==> n != ""
    ensures forall n :: n in r <==> exists i :: 0 <= i < |civs| && civs[i].isHuman && civs[i].civName == n && n != ""
  {
    if civs == [] then []
    else
      var head := if civs[0].isHuman && civs[0].civName != "" then [civs[0].civName] else [];
      var r := head + HumanRoster(civs[1..]);
      assert forall i :: 1 <= i < |civs| ==> civs[i] == civs[1..][i - 1];
      r
  }

  /** Extraction keeps the payload order: the roster of two concatenated civ lists is
      the concatenation of their rosters. */
  lemma {:induction false} HumanRosterKeepsOrder(a: seq<Civ>, b: seq<Civ>)
    ensures HumanRoster(a + b) == HumanRoster(a) + HumanRoster(b)
    decreases |a|
  {
    if a != [] {
      assert (a + b)[1..] == a[1..] + b;
      HumanRosterKeepsOrder(a[1..], b);
    } else {
      assert a + b == b;
    }
  }

  /** No roster name before position `i` normalizes to `key`. */
  predicate FirstMatchAt(roster: seq<string>, key: string, i: int)
  {
    forall j :: 0 <= j < i && j < |roster| ==> Normalize(roster[j]) != key
  }

  /** `get_raw_nation_name`: the first roster name whose upper-case form is `key`,
      or `key` itself when there is none. */
  function RawNationName(roster: seq<string>, key: string): (r: string)
    ensures (exists i :: 0 <= i < |roster| && Normalize(roster[i]) == key) ==> r in roster && Normalize(r) == key
    ensures (forall i :: 0 <= i < |roster| ==> Normalize(roster[i]) != key) ==> r == key
    ensures forall i :: 0 <= i < |roster| && Normalize(roster[i]) == key && FirstMatchAt(roster, key, i)
              ==> r == roster[i]
  {
    if roster == [] then key
    else if Normalize(roster[0]) == key then roster[0]
    else
      assert forall i :: 1 <= i < |roster| ==> roster[i] == roster[1..][i - 1];
      RawNationName(roster[1..], key)
  }

  /** Normalizing the display name found for a canonical key gives the key back. */
  lemma RawNationNameRoundTrip(roster: seq<string>, key: string)
    requires IsNormal(key)
    ensures Normalize(RawNationName(roster, key)) == key
  {
  }

  /** Whether roster name `n` matches the subscribe query `q`: case-insensitive substring. */
  predicate Matches(n: string, q: string)
  {
    Contains(Normalize(n), Normalize(q))
  }

  /** The subscribe search: the position of the FIRST roster name that contains the
      query, ignoring case. */
  function FindNation(roster: seq<string>, q: string): (r: Option<nat>)
    ensures r.Some? ==> r.value < |roster| && Matches(roster[r.value], q)
    ensures r.Some? ==> forall j :: 0 <= j < r.value ==> !Matches(roster[j], q)
    ensures r.None? ==> forall j :: 0 <= j < |roster| ==> !Matches(roster[j], q)
  {
    if roster == [] then None
    else if Matches(roster[0], q) then Some(0)
    else match FindNation(roster[1..], q)
      case Some(i) => Some(i + 1)
      case None => None
  }
}

=== FILE: monitor.dfy ===
/** The monitor tick (`monitor_game_state`) and the debounced error report
    (`send_debounced_error`), as pure step functions from the state, the current
    time in seconds and the fetch outcome to the next state and the events sent. */
module Monitor {
  import opened Wrappers
  import opened Text
  import opened OrderedDict
  import opened Game
  import opened Notifier

  /** Python truthiness of an optional string: present and non-empty. */
  predicate Truthy(x: Option<string>)
  {
    x.Some? && x.value != ""
  }

  /** The turn start in seconds: the payload's `currentTurnStartTime` in milliseconds,
      rounded down to whole seconds, unless it is absent or 0, in which case the tick's
      own time. */
  function TurnStartTime(now: int, ms: Option<int>): (t: int)
    ensures ms.Some? && ms.value != 0 ==> t * 1000 <= ms.value < t * 1000 + 1000
    ensures ms.None? || ms.value == 0 ==> t == now
  {
    if ms.Some? && ms.value != 0 then ms.value / 1000 else now
  }

  /** `_last_error_time_by_chat.get(chat, 0)`. */
  function LastErrorTime(last: map<int, int>, chat: int): int
  {
    if chat in last then last[chat] else 0
  }

  /** `send_debounced_error`: the error is sent only when at least
      `ErrorDebounceSeconds` have passed since the last error that reached `chat`
      (never-reached counts as time 0); the timestamp moves to `now` only when the
      transport reports delivery; other chats' timestamps never change. */
  function SendDebouncedError(last: map<int, int>, chat: int, now: int, delivered: bool): (r: (map<int, int>, seq<Event>))
    ensures r.1 == [] || r.1 == [ServerDown]
    ensures r.1 == [ServerDown] <==> now - LastErrorTime(last, chat) >= ErrorDebounceSeconds
    ensures r.1 != [] && delivered ==> chat in r.0 && r.0[chat] == now
    ensures r.1 == [] || !delivered ==> r.0 == last
    ensures forall c :: c != chat ==> (c in r.0 <==> c in last) && (c in last ==> r.0[c] == last[c])
  {
    if now - LastErrorTime(last, chat) >= ErrorDebounceSeconds then
      (if delivered then last[chat := now] else last, [ServerDown])
    else
      (last, [])
  }

  /** The current player the tick reads (`current_player_raw`): the payload's
      `currentPlayer`, or, on "not modified", the stored last turn player. */
  function CurrentPlayer(last: Option<string>, o: FetchOutcome): Option<string>
  {
    match o
    case Failure => None
    case NotModified => last
    case Fresh(p) => p.currentPlayer
  }

  /** The turn-start field of the outcome (a "not modified" answer has none). */
  function TurnStartMs(o: FetchOutcome): Option<int>
  {
    if o.Fresh? then o.payload.turnStartMs else None
  }

  /** How the tick classifies what it saw against the last turn player. */
  datatype Detection =
    | Indeterminate
    | FirstObservation(raw: string)
    | Changed(raw: string)
    | Unchanged(key: string)

  /** The turn detector: no current player means nothing to do; no last player means a
      first observation; otherwise the upper-cased current player is compared with the
      last one. */
  function Detect(last: Option<string>, o: FetchOutcome): (d: Detection)
    ensures d.Indeterminate? <==> !Truthy(CurrentPlayer(last, o))
    ensures d.FirstObservation? <==> Truthy(CurrentPlayer(last, o)) && last.None?
    ensures d.Changed? <==> Truthy(CurrentPlayer(last, o)) && last.Some? && Normalize(CurrentPlayer(last, o).value) != last.value
    ensures d.Unchanged? ==> last == Some(d.key) && d.key != "" && Normalize(CurrentPlayer(last, o).value) == d.key
    ensures (d.FirstObservation? || d.Changed?) ==> Some(d.raw) == CurrentPlayer(last, o)
    ensures o.NotModified? && Truthy(last) && IsNormal(last.value) ==> d == Unchanged(last.value)
  {
    var cur := CurrentPlayer(last, o);
    if !Truthy(cur) then Indeterminate
    else if last.None? then FirstObservation(cur.value)
    else if Normalize(cur.value) != last.value then Changed(cur.value)
    else Unchanged(last.value)
  }

  /** The reminder gate: the holder has an entry, a chat is set, notifications are not
      paused, the schedule is not exhausted, and the delay at the current index has
      elapsed since the previous reminder (or since the turn start). */
  predicate ReminderDue(s: State, key: string, now: int)
  {
    && key in s.notifState
    && HasChat(s)
    && !s.paused
    && s.notifState[key].nextIdx < |ReminderSchedule|
    && now >= s.notifState[key].lastReminded + ReminderSchedule[s.notifState[key].nextIdx]
  }

  /** A new turn holder `key` (first observation or turn change): it gets a fresh entry
      from `start`, other entries stay, the roster becomes `roster`, and the state is saved. */
  function NewHolder(s: State, key: string, start: int, roster: seq<string>): (r: State)
    ensures r == s.(lastTurnPlayer := Some(key), roster := roster, notifState := r.notifState, savedChat := s.chat)
    ensures key in r.notifState && r.notifState[key] == StartEntry(start)
    ensures SameExcept(s.notifState, r.notifState, key)
    ensures Inv(s) && IsNormal(key) && (forall n :: n in roster ==> n != "") ==> Inv(r)
  {
    s.(lastTurnPlayer := Some(key), roster := roster,
       notifState := s.notifState[key := StartEntry(start)], savedChat := s.chat)
  }

  /** The reminder for holder `key` once its gate is open: the delay at the current index
      is reported, the index advances by one, the reminder time becomes `now`, and the
      state is saved. */
  function Remind(s: State, key: string, now: int): (r: (State, seq<Event>))
    requires ReminderDue(s, key, now)
    ensures r.0 == s.(notifState := r.0.notifState, savedChat := s.chat)
    ensures var e := s.notifState[key];
            && key in r.0.notifState && r.0.notifState[key] == Entry(e.turnStart, e.nextIdx + 1, now)
            && r.1 == [Reminder(RawNationName(s.roster, key), Get(s.logins, key), ReminderSchedule[e.nextIdx])]
    ensures SameExcept(s.notifState, r.0.notifState, key)
    ensures Inv(s) ==> Inv(r.0)
  {
    var e := s.notifState[key];
    (s.(notifState := s.notifState[key := Entry(e.turnStart, e.nextIdx + 1, now)], savedChat := s.chat),
     [Reminder(RawNationName(s.roster, key), Get(s.logins, key), ReminderSchedule[e.nextIdx])])
  }

  /** One monitor tick.
      - Without a game nothing happens.
      - A failed fetch changes nothing but the error timestamps and sends at most the
        debounced error, and only when a chat is set.
      - With no current player (including "not modified" before any turn was seen)
        nothing happens.
      - A first observation records the holder with a fresh entry, sends nothing, and
        replaces the roster only if the payload lists a human civ.
      - A turn change records the new holder with a fresh entry, leaves every other
        entry alone, and sends one turn-change notice exactly when a chat is set and
        notifications are not paused.
      - An unchanged holder gets exactly one reminder when the reminder gate is open:
        its index advances by one and its reminder time becomes `now`. */
  function Tick(s: State, now: int, o: FetchOutcome, delivered: bool): (r: (State, seq<Event>))
    // a tick sends at most one message and touches only these fields; a save records
    // the chat in memory
    ensures |r.1| <= 1
    ensures r.0 == s.(lastTurnPlayer := r.0.lastTurnPlayer, roster := r.0.roster,
                      notifState := r.0.notifState, lastErrorTime := r.0.lastErrorTime,
                      savedChat := r.0.savedChat)
    ensures r.0.savedChat == s.savedChat || r.0.savedChat == s.chat
    ensures Inv(s) ==> Inv(r.0)
    // failed fetch
    ensures o.Failure? ==> r.0 == s.(lastErrorTime := r.0.lastErrorTime)
    ensures o.Failure? ==> r.1 == [] || r.1 == [ServerDown]
    ensures o.Failure? ==>
              (r.1 == [ServerDown] <==>
                 (HasGame(s) && HasChat(s) && now - LastErrorTime(s.lastErrorTime, s.chat.value) >= ErrorDebounceSeconds))
    ensures !o.Failure? ==> r.0.lastErrorTime == s.lastErrorTime && ServerDown !in r.1
    ensures r.0.lastErrorTime != s.lastErrorTime ==>
              && r.1 == [ServerDown] && delivered && HasChat(s)
              && r.0.lastErrorTime == s.lastErrorTime[s.chat.value := now]
    ensures o.Failure? && r.1 == [ServerDown] && delivered ==>
              HasChat(s) && r.0.lastErrorTime == s.lastErrorTime[s.chat.value := now]
    // nothing to act on
    ensures !o.Failure? && (!HasGame(s) || Detect(s.lastTurnPlayer, o).Indeterminate?) ==> r == (s, [])
    // first observation
    ensures HasGame(s) && Detect(s.lastTurnPlayer, o).FirstObservation? ==>
              var key := Normalize(o.payload.currentPlayer.value);
              && r.0.lastTurnPlayer == Some(key)
              && key in r.0.notifState && r.0.notifState[key] == StartEntry(TurnStartTime(now, o.payload.turnStartMs))
              && SameExcept(s.notifState, r.0.notifState, key)
              && r.0.roster == (if HasHuman(o.payload.civs) then HumanRoster(o.payload.civs) else s.roster)
              && r.0.savedChat == s.chat
              && r.1 == []
    // turn change
    ensures HasGame(s) && Detect(s.lastTurnPlayer, o).Changed? ==>
              var raw := CurrentPlayer(s.lastTurnPlayer, o).value;
              var key := Normalize(raw);
              && r.0.lastTurnPlayer == Some(key) && key != s.lastTurnPlayer.value
              && key in r.0.notifState && r.0.notifState[key] == StartEntry(TurnStartTime(now, TurnStartMs(o)))
              && SameExcept(s.notifState, r.0.notifState, key)
              && r.0.roster == s.roster && r.0.savedChat == s.chat
              && r.1 == (if HasChat(s) && !s.paused then [TurnChange(raw, Get(s.logins, key))] else [])
    // unchanged holder: the reminder
    ensures HasGame(s) && Detect(s.lastTurnPlayer, o).Unchanged? ==>
              var key := s.lastTurnPlayer.value;
              && r.0.lastTurnPlayer == s.lastTurnPlayer && r.0.roster == s.roster
              && (ReminderDue(s, key, now) ==>
                    var e := s.notifState[key];
                    && key in r.0.notifState
                    && r.0.notifState[key] == Entry(e.turnStart, e.nextIdx + 1, now)
                    && SameExcept(s.notifState, r.0.notifState, key)
                    && r.0.savedChat == s.chat
                    && r.1 == [Reminder(RawNationName(s.roster, key), Get(s.logins, key), ReminderSchedule[e.nextIdx])])
              && (!ReminderDue(s, key, now) ==> r == (s, []))
    // while the holder stays the same, every index only grows, by at most one per tick
    ensures r.0.lastTurnPlayer == s.lastTurnPlayer ==>
              forall k :: k in s.notifState ==>
                (k in r.0.notifState && s.notifState[k].nextIdx <= r.0.notifState[k].nextIdx <= s.notifState[k].nextIdx + 1)
  {
    if !HasGame(s) then (s, [])
    else if o.Failure? then
      if HasChat(s) then
        var (m, ev) := SendDebouncedError(s.lastErrorTime, s.chat.value, now, delivered);
        (s.(lastErrorTime := m), ev)
      else (s, [])
    else
      var start := TurnStartTime(now, TurnStartMs(o));
      match Detect(s.lastTurnPlayer, o)
      case Indeterminate => (s, [])
      case FirstObservation(raw) =>
        var key := Normalize(raw);
        NormalizeIdempotent(raw);
        var civs := if o.Fresh? then o.payload.civs else [];
        (NewHolder(s, key, start, if HasHuman(civs) then HumanRoster(civs) else s.roster),
         [])
      case Changed(raw) =>
        var key := Normalize(raw);
        NormalizeIdempotent(raw);
        var ev := if HasChat(s) && !s.paused then [TurnChange(raw, Get(s.logins, key))] else [];
        (NewHolder(s, key, start, s.roster), ev)
      case Unchanged(key) =>
        if ReminderDue(s, key, now) then Remind(s, key, now) else (s, [])
  }

  /** The scheduled job end to end: without a game nothing is fetched; otherwise the
      game URL is fetched with the cached ETag and the outcome is handed to `Tick`. The
      ETag cache changes only for the game URL, and only on a successful response. */
  function Poll(s: State, now: int, resp: Response, delivered: bool): (r: (State, seq<Event>))
    ensures !HasGame(s) ==> r == (s, [])
    ensures |r.1| <= 1
    ensures Inv(s) ==> Inv(r.0)
    ensures r.0.gameId == s.gameId && r.0.gameUrl == s.gameUrl && r.0.chat == s.chat
    ensures r.0.paused == s.paused && r.0.logins == s.logins
    ensures r.0.savedChat == s.savedChat || r.0.savedChat == s.chat
    ensures HasGame(s) ==> forall u :: u != s.gameUrl.value ==>
              (u in r.0.etagCache <==> u in s.etagCache) && (u in s.etagCache ==> r.0.etagCache[u] == s.etagCache[u])
    ensures !StoresEtag(resp) ==> r.0.etagCache == s.etagCache
    ensures HasGame(s) && StoresEtag(resp) ==>
              s.gameUrl.value in r.0.etagCache && r.0.etagCache[s.gameUrl.value] == resp.etag.value
    // a failed fetch: only the debounced error, exactly when a chat is set and the window is open
    ensures HasGame(s) && Fetch(s.etagCache, s.gameUrl.value, resp).0.Failure? ==>
              && r.0 == s.(etagCache := r.0.etagCache, lastErrorTime := r.0.lastErrorTime)
              && (r.1 == [ServerDown] <==>
                    HasChat(s) && now - LastErrorTime(s.lastErrorTime, s.chat.value) >= ErrorDebounceSeconds)
              && (r.1 == [ServerDown] && delivered ==> r.0.lastErrorTime == s.lastErrorTime[s.chat.value := now])
              && (r.1 == [] ==> r.0.lastErrorTime == s.lastErrorTime)
    // a successful fetch never reports the server down
    ensures HasGame(s) && !Fetch(s.etagCache, s.gameUrl.value, resp).0.Failure? ==>
              ServerDown !in r.1 && r.0.lastErrorTime == s.lastErrorTime
  {
    if !HasGame(s) then (s, [])
    else
      var (o, cache) := Fetch(s.etagCache, s.gameUrl.value, resp);
      Tick(s.(etagCache := cache), now, o, delivered)
  }
}

=== FILE: notifier.dfy ===
/** The notifier's state: one immutable record holding what the program keeps in its
    module-level globals, the fixed reminder schedule and error debounce window, the
    structured events the core hands to the chat transport, and the invariant every
    step preserves. */
module Notifier {
  import opened Wrappers
  import opened Text
  import opened OrderedDict

  /** `REMINDER_SCHEDULE` in seconds: 10 minutes, 30 minutes, 1 hour. */
  const ReminderSchedule: seq<int> := [600, 1800, 3600]

  /** `ERROR_DEBOUNCE_SECONDS`. */
  const ErrorDebounceSeconds: int := 300

  /** One value of `PLAYER_NOTIFICATION_STATE`: `last_turn_change_time`,
      `next_reminder_index` and `last_reminded_time`, times in whole seconds. */
  datatype Entry = Entry(turnStart: int, nextIdx: nat, lastReminded: int)

  /** The entry a holder gets when its turn (re)starts at `t`: index 0, both times `t`. */
  function StartEntry(t: int): Entry
  {
    Entry(t, 0, t)
  }

  /** The globals: `GAME_ID`, `CURRENT_GAME_URL`, `MAIN_CHAT_ID`, `LAST_TURN_PLAYER`
      (an upper-cased key), `NOTIFY_PAUSED`, `AVAILABLE_NATIONS` (the roster),
      `PLAYER_LOGINS` (key to handle, in dict order), `PLAYER_NOTIFICATION_STATE`,
      `ETAG_CACHE` (URL to ETag) and `_last_error_time_by_chat`; plus `savedChat`, the
      `MAIN_CHAT_ID` that `save_state` last wrote. The other persisted fields are
      written on every path that changes them, but `/setgame` and `/subscribe` bind the
      chat also on paths that return without saving, so only the chat can differ from
      what the state file holds. */
  datatype State = State(
    gameId: Option<string>,
    gameUrl: Option<string>,
    chat: Option<int>,
    lastTurnPlayer: Option<string>,
    paused: bool,
    roster: seq<string>,
    logins: Dict,
    notifState: map<string, Entry>,
    etagCache: map<string, string>,
    lastErrorTime: map<int, int>,
    savedChat: Option<int>)

  /** What the core asks the transport to send to the main chat: a turn-change notice
      (with the holder's display name and subscribed handle, if any), a reminder (with
      the delay that elapsed), or the "server down" error. */
  datatype Event =
    | TurnChange(nation: string, login: Option<string>)
    | Reminder(nation: string, login: Option<string>, delay: int)
    | ServerDown

  /** `if MAIN_CHAT_ID:` — a chat is set (a chat id of 0 counts as unset). */
  predicate HasChat(s: State)
  {
    s.chat.Some? && s.chat.value != 0
  }

  /** `if not CURRENT_GAME_URL: return` fails: a game is being watched. */
  predicate HasGame(s: State)
  {
    s.gameUrl.Some? && s.gameUrl.value != ""
  }

  /** The maps agree on every key except possibly `key`. */
  ghost predicate SameExcept(m: map<string, Entry>, m': map<string, Entry>, key: string)
  {
    forall k :: k != key ==> (k in m <==> k in m') && (k in m ==> m[k] == m'[k])
  }

  /** `save_state`: record the current chat as the one the state file holds. */
  function Save(s: State): State
  {
    s.(savedChat := s.chat)
  }

  /** The state at start-up when no state file exists. */
  function Initial(): (s: State)
    ensures !HasGame(s) && !HasChat(s) && !s.paused
    ensures s.lastTurnPlayer.None? && s.roster == [] && s.notifState == map[]
    ensures s.logins == [] && s.etagCache == map[] && s.lastErrorTime == map[] && s.savedChat.None?
  {
    State(None, None, None, None, false, [], Empty(), map[], map[], map[], None)
  }

  /** Every subscription key is non-empty and upper-cased, and every handle starts with
      `@` (so it is never empty). */
  predicate LoginsWellFormed(d: Dict)
  {
    forall i :: 0 <= i < |d| ==> d[i].0 != "" && IsNormal(d[i].0) && "@" <= d[i].1
  }

  /** Storing a handle starting with `@` under a non-empty upper-cased key keeps the
      subscription table well formed. */
  lemma SetKeepsLoginsWellFormed(d: Dict, k: string, v: string)
    requires LoginsWellFormed(d) && k != "" && IsNormal(k) && "@" <= v
    ensures LoginsWellFormed(Set(d, k, v))
  {
    var r := Set(d, k, v);
    forall i | 0 <= i < |r|
      ensures r[i].0 != "" && IsNormal(r[i].0) && "@" <= r[i].1
    {
      if r[i] != (k, v) {
        assert r[i] == d[i];
      }
    }
  }

  /** Deleting a key keeps the subscription table well formed. */
  lemma DeleteKeepsLoginsWellFormed(d: Dict, k: string)
    requires HasKey(d, k)
    ensures LoginsWellFormed(d) ==> LoginsWellFormed(Delete(d, k))
  {
    var r := Delete(d, k);
    var i := IndexOf(d, k).value;
    forall a | 0 <= a < |r| && LoginsWellFormed(d)
      ensures r[a].0 != "" && IsNormal(r[a].0) && "@" <= r[a].1
    {
      if a < i {
        assert r[a] == d[a];
      } else {
        assert r[a] == d[a + 1];
      }
    }
  }

  /** The invariant every step preserves:
      - the last turn player is stored upper-cased;
      - no reminder index runs past the end of the schedule;
      - roster names are non-empty;
      - the subscription table is well formed. */
  predicate Inv(s: State)
  {
    && (s.lastTurnPlayer.Some? ==> IsNormal(s.lastTurnPlayer.value))
    && (forall k :: k in s.notifState ==> s.notifState[k].nextIdx <= |ReminderSchedule|)
    && (forall n :: n in s.roster ==> n != "")
    && LoginsWellFormed(s.logins)
  }

  /** The initial state satisfies the invariant. */
  lemma InitialInv()
    ensures Inv(Initial())
  {
  }

  /** What survives a restart: `save_state` writes the game id and URL, the main chat,
      the subscriptions and the last turn player (plus language and interval, which the
      core does not use), and `load_state` reads them back. The chat comes back as last
      saved, which may be older than the chat in memory. The roster, the reminder
      entries, the pause flag, the ETag cache and the error timestamps start afresh. */
  function Restart(s: State): (r: State)
    ensures r.gameId == s.gameId && r.gameUrl == s.gameUrl
    ensures r.chat == s.savedChat && r.savedChat == s.savedChat
    ensures r.logins == s.logins && r.lastTurnPlayer == s.lastTurnPlayer
    ensures !r.paused && r.roster == [] && r.notifState == map[]
    ensures r.etagCache == map[] && r.lastErrorTime == map[]
    ensures Inv(s) ==> Inv(r)
  {
    State(s.gameId, s.gameUrl, s.savedChat, s.lastTurnPlayer, false, [], s.logins, map[], map[], map[], s.savedChat)
  }
}

=== FILE: ordered_dict.dfy ===
/** Python's `dict` from strings to strings (the subscription table, nation key to
    handle) as an insertion-ordered association list. The order matters to
    the notifier because `unsubscribe` removes the FIRST key, in dict order, whose
    value is the given handle; assigning to an existing key keeps its position and
    assigning to a new key appends it, as in Python. */
module OrderedDict {
  import opened Wrappers

  /** No key occurs twice. */
  predicate UniqueKeys(d: seq<(string, string)>)
  {
    forall i, j :: 0 <= i < j < |d| ==> d[i].0 != d[j].0
  }

  /** A dict: the entries in insertion order, keys unique. */
  type Dict = d: seq<(string, string)> | UniqueKeys(d) witness []

  /** The empty dict, `{}` (what `dict.clear()` leaves behind). */
  function Empty(): (d: Dict)
    ensures forall k :: Get(d, k) == None
  {
    []
  }

  /** Whether `k` is a key of `d`. */
  predicate HasKey(d: seq<(string, string)>, k: string)
  {
    exists i :: 0 <= i < |d| && d[i].0 == k
  }

  /** Position of key `k` in `d`, if present. */
  function IndexOf(d: seq<(string, string)>, k: string): (r: Option<nat>)
    ensures r.Some? ==> r.value < |d| && d[r.value].0 == k
    ensures r.Some? ==> forall j :: 0 <= j < r.value ==> d[j].0 != k
    ensures r.None? ==> forall j :: 0 <= j < |d| ==> d[j].0 != k
  {
    if d == [] then None
    else if d[0].0 == k then Some(0)
    else match IndexOf(d[1..], k)
      case Some(i) => Some(i + 1)
      case None => None
  }

  /** `d.get(k)`: the value stored under `k`, or `None` when `k` is not a key. */
  function Get(d: Dict, k: string): (r: Option<string>)
    ensures r.None? <==> !HasKey(d, k)
    ensures forall i :: 0 <= i < |d| && d[i].0 == k ==> r == Some(d[i].1)
  {
    match IndexOf(d, k)
    case Some(i) => Some(d[i].1)
    case None => None
  }

  /** `d[k] = v`: afterwards `k` maps to `v` and every other key keeps its value.
      An existing key keeps its position; a new key is appended at the end. */
  function Set(d: Dict, k: string, v: string): (r: Dict)
    ensures Get(r, k) == Some(v)
    ensures forall j :: j != k ==> Get(r, j) == Get(d, j)
    ensures HasKey(d, k) ==> |r| == |d| && forall i :: 0 <= i < |d| ==> r[i].0 == d[i].0
    ensures !HasKey(d, k) ==> r == d + [(k, v)]
    ensures forall i :: 0 <= i < |r| ==> r[i] == (k, v) || (i < |d| && r[i] == d[i])
  {
    match IndexOf(d, k)
    case Some(i) =>
      var r := d[i := (k, v)];
      assert forall a :: 0 <= a < |r| ==> r[a].0 == d[a].0;
      r
    case None =>
      var r := d + [(k, v)];
      assert forall a :: 0 <= a < |d| ==> r[a] == d[a];
      assert r[|d|] == (k, v);
      r
  }

  /** `del d[k]` for a key that is present: `k` is gone, every other key keeps its
      value, and the remaining entries keep their order. */
  function Delete(d: Dict, k: string): (r: Dict)
    requires HasKey(d, k)
    ensures Get(r, k) == None
    ensures forall j :: j != k ==> Get(r, j) == Get(d, j)
    ensures |r| == |d| - 1
    ensures forall a :: 0 <= a < IndexOf(d, k).value ==> r[a] == d[a]
    ensures forall a :: IndexOf(d, k).value <= a < |r| ==> r[a] == d[a + 1]
  {
    var i := IndexOf(d, k).value;
    var r := d[..i] + d[i + 1..];
    DeleteKeepsOthers(d, i, r);
    r
  }

  /** Removing the entry at position `i` keeps the value of every other key. */
  lemma DeleteKeepsOthers(d: Dict, i: nat, r: seq<(string, string)>)
    requires i < |d| && r == d[..i] + d[i + 1..]
    ensures UniqueKeys(r)
    ensures forall j :: j != d[i].0 ==> (HasKey(r, j) <==> HasKey(d, j))
    ensures forall a :: 0 <= a < i ==> r[a] == d[a]
    ensures forall a :: i <= a < |r| ==> r[a] == d[a + 1]
  {
    forall j | j != d[i].0 && HasKey(d, j)
      ensures HasKey(r, j)
    {
      var a :| 0 <= a < |d| && d[a].0 == j;
      if a < i {
        assert r[a] == d[a];
      } else {
        assert r[a - 1] == d[a];
      }
    }
  }

  /** Position of the first entry, in dict order, whose value is `v`
      (`next((k for k, x in d.items() if x == v), None)`). */
  function FirstWithValue(d: Dict, v: string): (r: Option<nat>)
    ensures r.Some? ==> r.value < |d| && d[r.value].1 == v
    ensures r.Some? ==> forall j :: 0 <= j < r.value ==> d[j].1 != v
    ensures r.None? ==> forall j :: 0 <= j < |d| ==> d[j].1 != v
  {
    if d == [] then None
    else if d[0].1 == v then Some(0)
    else match FirstWithValue(d[1..], v)
      case Some(i) => Some(i + 1)
      case None => None
  }
}

=== FILE: properties.dfy ===
/** Properties of runs of several steps: the reminder schedule followed in order while
    the holder stays the same, silence after a restart and while paused, the error
    debounce window, the re-arm on resume, the ETag cache's effect on `/setgame`, and
    the two-tick scenario of a first observation followed by a turn change. */
module Properties {
  import opened Wrappers
  import opened Text
  import opened OrderedDict
  import opened Game
  import opened Notifier
  import opened Monitor
  import opened Commands

  /** One firing of the monitor job: its time, the fetch outcome, and whether an error
      message, if one is sent, reaches the chat. */
  datatype TickInput = TickInput(now: int, outcome: FetchOutcome, delivered: bool)

  /** The ticks in order, with the events of all of them in order. */
  function Run(s: State, steps: seq<TickInput>): (r: (State, seq<Event>))
    ensures |r.1| <= |steps|
    ensures r.0.gameId == s.gameId && r.0.gameUrl == s.gameUrl && r.0.chat == s.chat
    ensures r.0.paused == s.paused && r.0.logins == s.logins && r.0.etagCache == s.etagCache
    ensures Inv(s) ==> Inv(r.0)
    decreases |steps|
  {
    if steps == [] then (s, [])
    else
      var (s1, e1) := Tick(s, steps[0].now, steps[0].outcome, steps[0].delivered);
      var (s2, e2) := Run(s1, steps[1..]);
      (s2, e1 + e2)
  }

  /** The delays of the reminders among `evs`, in order. */
  function Delays(evs: seq<Event>): seq<int>
  {
    if evs == [] then []
    else (if evs[0].Reminder? then [evs[0].delay] else []) + Delays(evs[1..])
  }

  /** The number of error messages among `evs`. */
  function CountErrors(evs: seq<Event>): nat
  {
    if evs == [] then 0 else (if evs[0].ServerDown? then 1 else 0) + CountErrors(evs[1..])
  }

  /** No turn-change notice among `evs`. */
  predicate NoTurnChange(evs: seq<Event>)
  {
    forall i :: 0 <= i < |evs| ==> !evs[i].TurnChange?
  }

  lemma {:induction false} DelaysAppend(a: seq<Event>, b: seq<Event>)
    ensures Delays(a + b) == Delays(a) + Delays(b)
    decreases |a|
  {
    if a == [] {
      assert a + b == b;
    } else {
      var head := if a[0].Reminder? then [a[0].delay] else [];
      assert (a + b)[0] == a[0];
      assert (a + b)[1..] == a[1..] + b;
      DelaysAppend(a[1..], b);
      calc {
        Delays(a + b);
        head + Delays(a[1..] + b);
        head + (Delays(a[1..]) + Delays(b));
        (head + Delays(a[1..])) + Delays(b);
      }
    }
  }

  lemma {:induction false} CountErrorsAppend(a: seq<Event>, b: seq<Event>)
    ensures CountErrors(a + b) == CountErrors(a) + CountErrors(b)
    decreases |a|
  {
    if a == [] {
      assert a + b == b;
    } else {
      assert (a + b)[1..] == a[1..] + b;
      CountErrorsAppend(a[1..], b);
    }
  }

  lemma NoTurnChangeAppend(a: seq<Event>, b: seq<Event>)
    requires NoTurnChange(a) && NoTurnChange(b)
    ensures NoTurnChange(a + b)
  {
  }

  /** The outcome does not name a holder other than `k`: the fetch failed, was "not
      modified", or its current player is absent or upper-cases to `k`. */
  predicate KeepsHolder(o: FetchOutcome, k: string)
  {
    !o.Fresh? || !Truthy(o.payload.currentPlayer) || Normalize(o.payload.currentPlayer.value) == k
  }

  /** One tick that keeps holder `k`: the index advances by at most one, and a
      reminder, if sent, carries the delay at the index before the tick. */
  lemma TickFollowsSchedule(s: State, st: TickInput, k: string)
    requires Inv(s) && s.lastTurnPlayer == Some(k) && k != "" && k in s.notifState
    requires KeepsHolder(st.outcome, k)
    ensures var (s1, e1) := Tick(s, st.now, st.outcome, st.delivered);
            && Inv(s1) && s1.lastTurnPlayer == Some(k) && k in s1.notifState
            && s.notifState[k].nextIdx <= s1.notifState[k].nextIdx <= |ReminderSchedule|
            && Delays(e1) == ReminderSchedule[s.notifState[k].nextIdx..s1.notifState[k].nextIdx]
            && NoTurnChange(e1)
  {
  }

  /** Two consecutive stretches that each follow the schedule follow it together. */
  lemma ScheduleSlicesJoin(i0: nat, i1: nat, i2: nat, e1: seq<Event>, e2: seq<Event>)
    requires i0 <= i1 <= i2 <= |ReminderSchedule|
    requires Delays(e1) == ReminderSchedule[i0..i1] && Delays(e2) == ReminderSchedule[i1..i2]
    requires NoTurnChange(e1) && NoTurnChange(e2)
    ensures Delays(e1 + e2) == ReminderSchedule[i0..i2] && NoTurnChange(e1 + e2)
  {
    DelaysAppend(e1, e2);
    NoTurnChangeAppend(e1, e2);
    assert ReminderSchedule[i0..i1] + ReminderSchedule[i1..i2] == ReminderSchedule[i0..i2];
  }

  /** While the holder `k` stays the same, the reminders sent are exactly the next
      entries of the schedule, in order, each at most once: their delays are the slice
      of the schedule between the index before and the index after the run. No
      turn-change notice is sent and `k` stays the holder. */
  lemma {:induction false} RemindersFollowSchedule(s: State, steps: seq<TickInput>, k: string)
    requires Inv(s) && s.lastTurnPlayer == Some(k) && k != "" && k in s.notifState
    requires forall i :: 0 <= i < |steps| ==> KeepsHolder(steps[i].outcome, k)
    ensures var (s', evs) := Run(s, steps);
            && s'.lastTurnPlayer == Some(k) && k in s'.notifState
            && s.notifState[k].nextIdx <= s'.notifState[k].nextIdx <= |ReminderSchedule|
            && Delays(evs) == ReminderSchedule[s.notifState[k].nextIdx..s'.notifState[k].nextIdx]
            && NoTurnChange(evs)
    decreases |steps|
  {
    if steps != [] {
      var st := steps[0];
      var (s1, e1) := Tick(s, st.now, st.outcome, st.delivered);
      var (s2, e2) := Run(s1, steps[1..]);
      assert Run(s, steps) == (s2, e1 + e2);
      TickFollowsSchedule(s, st, k);
      RemindersFollowSchedule(s1, steps[1..], k);
      ScheduleSlicesJoin(s.notifState[k].nextIdx, s1.notifState[k].nextIdx, s2.notifState[k].nextIdx, e1, e2);
    }
  }

  /** Once the schedule is exhausted for the holder, no further reminder is sent until
      the turn changes. */
  lemma ExhaustedScheduleIsSilent(s: State, steps: seq<TickInput>, k: string)
    requires Inv(s) && s.lastTurnPlayer == Some(k) && k != "" && k in s.notifState
    requires s.notifState[k].nextIdx == |ReminderSchedule|
    requires forall i :: 0 <= i < |steps| ==> KeepsHolder(steps[i].outcome, k)
    ensures Delays(Run(s, steps).1) == []
  {
    RemindersFollowSchedule(s, steps, k);
  }

  /** A holder without a reminder entry gets no reminder, however long its turn lasts,
      and the entry is not created while the holder stays the same. */
  lemma {:induction false} NoEntryNoReminder(s: State, steps: seq<TickInput>, k: string)
    requires Inv(s) && s.lastTurnPlayer == Some(k) && k != "" && k !in s.notifState
    requires forall i :: 0 <= i < |steps| ==> KeepsHolder(steps[i].outcome, k)
    ensures var (s', evs) := Run(s, steps);
            && s'.lastTurnPlayer == Some(k) && k !in s'.notifState
            && Delays(evs) == [] && NoTurnChange(evs)
    decreases |steps|
  {
    if steps != [] {
      var st := steps[0];
      var (s1, e1) := Tick(s, st.now, st.outcome, st.delivered);
      var d := Detect(s.lastTurnPlayer, st.outcome);
      assert d.Indeterminate? || d == Unchanged(k);
      assert e1 == [] || e1 == [ServerDown];
      assert Delays(e1) == [] by {
        if e1 != [] {
          assert Delays(e1) == [] + Delays([]);
        }
      }
      NoEntryNoReminder(s1, steps[1..], k);
      var (s2, e2) := Run(s1, steps[1..]);
      DelaysAppend(e1, e2);
      NoTurnChangeAppend(e1, e2);
    }
  }

  /** After a restart the reminder entries are gone while the last turn player is kept,
      so while only ticks run no reminder is sent until the turn changes. (A `/pause`
      that resumes re-creates the holder's entry; see `PauseResumeRearms`.) */
  lemma RestartSilencesReminders(s: State, steps: seq<TickInput>, k: string)
    requires Inv(s) && s.lastTurnPlayer == Some(k) && k != ""
    requires forall i :: 0 <= i < |steps| ==> KeepsHolder(steps[i].outcome, k)
    ensures Delays(Run(Restart(s), steps).1) == []
  {
    NoEntryNoReminder(Restart(s), steps, k);
  }

  /** Once a turn player is known, ticks never replace the roster (only a first
      observation does), and the player stays known. */
  lemma {:induction false} RosterFrozenOnceHolderKnown(s: State, steps: seq<TickInput>)
    requires s.lastTurnPlayer.Some?
    ensures Run(s, steps).0.roster == s.roster
    ensures Run(s, steps).0.lastTurnPlayer.Some?
    decreases |steps|
  {
    if steps != [] {
      var st := steps[0];
      var (s1, e1) := Tick(s, st.now, st.outcome, st.delivered);
      assert !Detect(s.lastTurnPlayer, st.outcome).FirstObservation?;
      RosterFrozenOnceHolderKnown(s1, steps[1..]);
    }
  }

  /** The roster is not persisted but the last turn player is: after a restart the
      roster stays empty through any ticks, so every `/subscribe` answers "not found"
      until the next `/setgame`. */
  lemma RestartLosesRoster(s: State, steps: seq<TickInput>, chat: Option<int>, args: seq<string>)
    requires s.lastTurnPlayer.Some?
    ensures Run(Restart(s), steps).0.roster == []
    ensures !Subscribe(Run(Restart(s), steps).0, chat, args).1.Subscribed?
  {
    RosterFrozenOnceHolderKnown(Restart(s), steps);
  }

  /** `/setgame` and `/subscribe` bind the chat they are sent from even when they fail,
      but save only on success: after a restart the chat is the one saved before. */
  lemma FailedCommandChatLostOnRestart(s: State, chat: Option<int>, args: seq<string>, resp: Response)
    ensures !SetGame(s, chat, args, resp).1.GameSet? ==>
              && SetGame(s, chat, args, resp).0.chat == (if chat.Some? then chat else s.chat)
              && Restart(SetGame(s, chat, args, resp).0).chat == s.savedChat
    ensures !Subscribe(s, chat, args).1.Subscribed? ==>
              && Subscribe(s, chat, args).0.chat == (if chat.Some? then chat else s.chat)
              && Restart(Subscribe(s, chat, args).0).chat == s.savedChat
  {
  }

  /** While paused, ticks send neither turn-change notices nor reminders. */
  lemma {:induction false} PausedIsSilent(s: State, steps: seq<TickInput>)
    requires s.paused
    ensures Delays(Run(s, steps).1) == [] && NoTurnChange(Run(s, steps).1)
    decreases |steps|
  {
    if steps != [] {
      var st := steps[0];
      var (s1, e1) := Tick(s, st.now, st.outcome, st.delivered);
      assert e1 == [] || e1 == [ServerDown];
      assert Delays(e1) == [] by {
        if e1 != [] {
          assert Delays(e1) == [] + Delays([]);
        }
      }
      PausedIsSilent(s1, steps[1..]);
      var (s2, e2) := Run(s1, steps[1..]);
      DelaysAppend(e1, e2);
      NoTurnChangeAppend(e1, e2);
    }
  }

  /** Within the debounce window after an error reached the chat at `t`, no error
      message is sent, whatever the ticks, and the timestamp stays `t`. */
  lemma {:induction false} NoErrorWithinWindow(s: State, steps: seq<TickInput>, t: int)
    requires HasChat(s) && s.chat.value in s.lastErrorTime && s.lastErrorTime[s.chat.value] == t
    requires forall i :: 0 <= i < |steps| ==> steps[i].now < t + ErrorDebounceSeconds
    ensures CountErrors(Run(s, steps).1) == 0
    ensures Run(s, steps).0.lastErrorTime == s.lastErrorTime
    decreases |steps|
  {
    if steps != [] {
      var st := steps[0];
      var (s1, e1) := Tick(s, st.now, st.outcome, st.delivered);
      assert ServerDown !in e1;
      assert CountErrors(e1) == 0 by {
        if e1 != [] {
          assert e1 == [e1[0]];
          assert CountErrors(e1) == 0 + CountErrors([]);
        }
      }
      NoErrorWithinWindow(s1, steps[1..], t);
      var (s2, e2) := Run(s1, steps[1..]);
      CountErrorsAppend(e1, e2);
    }
  }

  /** Failures whose error messages all get through, within one window of length
      `ErrorDebounceSeconds` starting at `t0`, produce at most one error message. */
  lemma {:induction false} AtMostOneErrorPerWindow(s: State, steps: seq<TickInput>, t0: int)
    requires forall i :: 0 <= i < |steps| ==> t0 <= steps[i].now < t0 + ErrorDebounceSeconds && steps[i].delivered
    ensures CountErrors(Run(s, steps).1) <= 1
    decreases |steps|
  {
    if steps != [] {
      var st := steps[0];
      var (s1, e1) := Tick(s, st.now, st.outcome, st.delivered);
      var (s2, e2) := Run(s1, steps[1..]);
      CountErrorsAppend(e1, e2);
      if e1 == [ServerDown] {
        assert CountErrors(e1) == 1 + CountErrors([]);
        assert s1.lastErrorTime == s.lastErrorTime[s.chat.value := st.now];
        NoErrorWithinWindow(s1, steps[1..], st.now);
      } else {
        assert e1 == [] || !e1[0].ServerDown?;
        assert CountErrors(e1) == 0 by {
          if e1 != [] {
            assert e1 == [e1[0]];
            assert CountErrors(e1) == 0 + CountErrors([]);
          }
        }
        AtMostOneErrorPerWindow(s1, steps[1..], t0);
      }
    }
  }

  /** Pausing and then resuming while a turn holder is known re-arms the holder's
      schedule from index 0 at the resume time, whatever had fired before. */
  lemma PauseResumeRearms(s: State, t1: int, t2: int)
    requires !s.paused && s.lastTurnPlayer.Some? && s.lastTurnPlayer.value != ""
    ensures var r := TogglePause(TogglePause(s, t1).0, t2).0;
            && !r.paused
            && s.lastTurnPlayer.value in r.notifState
            && r.notifState[s.lastTurnPlayer.value] == StartEntry(t2)
  {
  }

  /** `/setgame` caches the server's ETag, so the first poll afterwards, against an
      unchanged server, is answered "not modified" while no turn player is known yet:
      it does nothing, and the current holder stays unknown until the game changes. */
  lemma FirstPollAfterSetGameIsSilent(s: State, chat: Option<int>, id: string, srv: Server, now: int, delivered: bool)
    requires srv.etag != ""
    requires Validator(s.etagCache, BaseUrl + Strip(id)) != Some(srv.etag)
    ensures var url := BaseUrl + Strip(id);
            var (s1, reply) := SetGame(s, chat, [id], Serve(srv, Validator(s.etagCache, url)));
            && reply.GameSet?
            && Poll(s1, now, Serve(srv, Validator(s1.etagCache, url)), delivered) == (s1, [])
  {
  }

  /** Repeating `/setgame` for the same game while it is unchanged on the server fails
      with "could not fetch", because the cached ETag turns the answer into a 304. */
  lemma RepeatedSetGameFails(s: State, chat: Option<int>, id: string, srv: Server)
    requires srv.etag != ""
    requires Validator(s.etagCache, BaseUrl + Strip(id)) != Some(srv.etag)
    ensures var url := BaseUrl + Strip(id);
            var (s1, reply1) := SetGame(s, chat, [id], Serve(srv, Validator(s.etagCache, url)));
            var (s2, reply2) := SetGame(s1, chat, [id], Serve(srv, Validator(s1.etagCache, url)));
            reply1.GameSet? && reply2 == FetchFailed(Strip(id)) && s2 == s1
  {
  }

  /** The scenario's states: roster Rome and Egypt with a game and a chat; then "@alice"
      subscribed to Rome; then "ROME" observed at time 1000; then Egypt's turn from 1060. */
  function ScenarioStart(): State
  {
    Initial().(gameUrl := Some(BaseUrl + "g1"), chat := Some(7), roster := ["Rome", "Egypt"])
  }

  function ScenarioSubscribed(): State
  {
    ScenarioStart().(logins := [("ROME", "@alice")], savedChat := Some(7))
  }

  function ScenarioRome(): State
  {
    ScenarioSubscribed().(lastTurnPlayer := Some("ROME"), notifState := map["ROME" := StartEntry(1000)])
  }

  function ScenarioEgypt(): State
  {
    ScenarioRome().(lastTurnPlayer := Some("EGYPT"),
                    notifState := map["ROME" := StartEntry(1000), "EGYPT" := StartEntry(1060)])
  }

  /** The arguments `Rome @alice` give the query "Rome". */
  lemma ScenarioQuery()
    ensures NationQuery(["Rome", "@alice"]) == "Rome"
  {
  }

  /** "Rome" matches the roster's first name. */
  lemma ScenarioFind()
    ensures FindNation(["Rome", "Egypt"], "Rome") == Some(0)
  {
  }

  /** The query "Rome" picks the roster's first name, Rome. */
  lemma ScenarioPick()
    ensures PickNation(["Rome", "Egypt"], NationQuery(["Rome", "@alice"])) == Some("Rome")
  {
    ScenarioQuery();
    ScenarioFind();
  }

  /** `/subscribe Rome @alice` finds Rome and stores the handle under "ROME". */
  lemma ScenarioSubscribe()
    ensures Subscribe(ScenarioStart(), None, ["Rome", "@alice"]) == (ScenarioSubscribed(), Subscribed("Rome", "@alice"))
  {
    ScenarioPick();
    assert Normalize("Rome") == "ROME" by {
      NormalizeIgnoresCase();
    }
    assert Set([], "ROME", "@alice") == [("ROME", "@alice")] by {
      assert IndexOf([], "ROME") == None;
    }
  }

  /** The first tick sees "ROME": a first observation, nothing sent. */
  lemma ScenarioFirstTick()
    ensures Tick(ScenarioSubscribed(), 1000, Fresh(Payload(Some("ROME"), None, [])), true) == (ScenarioRome(), [])
  {
    NormalizeIgnoresCase();
    assert !HasHuman([]);
  }

  /** The second tick sees "Egypt": one turn-change notice, no handle. */
  lemma ScenarioSecondTick()
    ensures Tick(ScenarioRome(), 1060, Fresh(Payload(Some("Egypt"), None, [])), true)
            == (ScenarioEgypt(), [TurnChange("Egypt", None)])
  {
    assert Normalize("Egypt") == "EGYPT";
    assert Get(ScenarioRome().logins, "EGYPT") == None by {
      assert IndexOf(ScenarioRome().logins, "EGYPT") == None;
    }
  }

  /** Roster Rome and Egypt, "@alice" subscribed to Rome; a first observation of "ROME"
      sends nothing and starts Rome's entry at index 0; then "Egypt" takes over and
      exactly one turn-change notice goes out, without a handle, and Egypt's entry
      starts at index 0. */
  lemma RomeEgyptScenario()
    ensures var (s1, reply) := Subscribe(ScenarioStart(), None, ["Rome", "@alice"]);
            var (s2, e2) := Tick(s1, 1000, Fresh(Payload(Some("ROME"), None, [])), true);
            var (s3, e3) := Tick(s2, 1060, Fresh(Payload(Some("Egypt"), None, [])), true);
            && reply == Subscribed("Rome", "@alice")
            && e2 == [] && s2.lastTurnPlayer == Some("ROME")
            && "ROME" in s2.notifState && s2.notifState["ROME"].nextIdx == 0
            && e3 == [TurnChange("Egypt", None)] && s3.lastTurnPlayer == Some("EGYPT")
            && "EGYPT" in s3.notifState && s3.notifState["EGYPT"].nextIdx == 0
  {
    ScenarioSubscribe();
    ScenarioFirstTick();
    ScenarioSecondTick();
  }
}

=== FILE: text.dfy ===
/** String helpers behind the notifier's name handling: the upper-case fold used
    as the canonical key of a nation (`normalize`), substring search, whitespace
    stripping and joining of command arguments. Strings are `seq<char>`. */
module Text {

  /** Upper-case fold of one character; only the ASCII letters `a`..`z` change. */
  function UpperChar(c: char): char
  {
    if 'a' <= c <= 'z' then (c as int - 32) as char else c
  }

  /** `normalize` / `str.upper()`: the case-folded canonical form of a name.
      The fold is applied character by character and keeps the length. */
  function Normalize(s: string): (r: string)
    ensures |r| == |s|
    ensures forall i :: 0 <= i < |s| ==> r[i] == UpperChar(s[i])
  {
    if s == [] then [] else [UpperChar(s[0])] + Normalize(s[1..])
  }

  /** A name that is already in canonical form. */
  predicate IsNormal(s: string)
  {
    Normalize(s) == s
  }

  /** Normalizing twice is the same as normalizing once, so every normalized key is canonical. */
  lemma NormalizeIdempotent(s: string)
    ensures IsNormal(Normalize(s))
  {
  }

  /** The fold ignores case: "Rome", "ROME" and "rome" share one key. */
  lemma NormalizeIgnoresCase()
    ensures Normalize("Rome") == Normalize("ROME") == Normalize("rome") == "ROME"
  {
  }

  /** `sub` occurs in `s` starting at position `i`. */
  predicate OccursAt(s: string, sub: string, i: int)
  {
    0 <= i <= |s| - |sub| && s[i..i + |sub|] == sub
  }

  /** Python's `sub in s`: `sub` occurs in `s` at some position. */
  function Contains(s: string, sub: string): (r: bool)
    ensures r <==> exists i :: OccursAt(s, sub, i)
    decreases |s|
  {
    if sub <= s then
      assert OccursAt(s, sub, 0);
      true
    else if |s| == 0 then
      false
    else
      ContainsShift(s, sub);
      Contains(s[1..], sub)
  }

  /** Occurrences in `s` at positions after 0 are exactly the occurrences in `s[1..]`. */
  lemma ContainsShift(s: string, sub: string)
    requires |s| > 0 && !(sub <= s)
    ensures (exists i :: OccursAt(s, sub, i)) <==> (exists i :: OccursAt(s[1..], sub, i))
  {
    if exists i :: OccursAt(s, sub, i) {
      var i :| OccursAt(s, sub, i);
      assert s[1..][i - 1..i - 1 + |sub|] == sub;
      assert OccursAt(s[1..], sub, i - 1);
    }
    if exists i :: OccursAt(s[1..], sub, i) {
      var i :| OccursAt(s[1..], sub, i);
      assert s[i + 1..i + 1 + |sub|] == sub;
      assert OccursAt(s, sub, i + 1);
    }
  }

  /** The characters `str.strip()` removes (the ASCII part of Python's whitespace set). */
  predicate IsSpace(c: char)
  {
    c == ' ' || 9 <= c as int <= 13 || 28 <= c as int <= 31
  }

  /** Number of leading whitespace characters of `s`. */
  function LeadingSpaces(s: string): (n: nat)
    ensures n <= |s|
    ensures forall k :: 0 <= k < n ==> IsSpace(s[k])
    ensures n == |s| || !IsSpace(s[n])
  {
    if s == [] || !IsSpace(s[0]) then 0 else 1 + LeadingSpaces(s[1..])
  }

  /** Number of trailing whitespace characters of `s`. */
  function TrailingSpaces(s: string): (n: nat)
    ensures n <= |s|
    ensures forall k :: |s| - n <= k < |s| ==> IsSpace(s[k])
    ensures n == |s| || !IsSpace(s[|s| - n - 1])
  {
    if s == [] || !IsSpace(s[|s| - 1]) then 0 else 1 + TrailingSpaces(s[..|s| - 1])
  }

  /** `str.strip()`: the longest slice of `s` that neither starts nor ends with whitespace,
      with only whitespace cut away on either side. */
  function Strip(s: string): (r: string)
    ensures exists i, j ::
              && 0 <= i <= j <= |s| && r == s[i..j]
              && (forall k :: 0 <= k < i ==> IsSpace(s[k]))
              && (forall k :: j <= k < |s| ==> IsSpace(s[k]))
    ensures r == [] || (!IsSpace(r[0]) && !IsSpace(r[|r| - 1]))
  {
    var i := LeadingSpaces(s);
    var t := TrailingSpaces(s[i..]);
    var j := |s| - t;
    assert s[i..][..|s[i..]| - t] == s[i..j];
    s[i..j]
  }

  /** `sep.join(parts)`. */
  function Join(parts: seq<string>, sep: string): string
  {
    if parts == [] then ""
    else if |parts| == 1 then parts[0]
    else parts[0] + sep + Join(parts[1..], sep)
  }
}

=== FILE: wrappers.dfy ===
/** The conventional Some/None datatype, standing in for Python's `Optional`. */
module Wrappers {

  datatype Option<+T> = None | Some(value: T)
}
